=== FILE: README.md ===
# One-line chat board: a Dafny model

This project models the core of a small chat-board server, `--|==1line==chat====>`,
which comes in two variants: lab01 (raw sockets) and lab02 (RMI). Each connected
author has at most one current message on a shared board. The dashboard redraws
the board every tick, and each message fades as it ages, until the author's next
message replaces it. Three sequential pieces are modelled:

- **The board** (`AppState`, the same class in lab01 and lab02; only lab02 has
  `removeAuthor`). It is a `map<string, Message>` with pure operations. Each
  public method holds the board's lock for exactly one mutation or one copy, so
  each one is modelled as a single atomic step. The board is passed by value.
  So a snapshot returned by `getMessages` is independent of the board: later
  puts, removes and time steps cannot change it, and it holds no reference into
  the board. The board itself is also unchanged by taking the snapshot.
- **The lab01 request loop** (`ClientHandler.readRequest` and `process`). It
  works over the lines `readLine` returns, with a cursor. The client's frame
  writer (`AppClient.process` and `sendQuit`) is the matching encoder. The
  `println`/`readLine` line layer connects the two at the character level.
- **The dashboard** (`AppMessagesDashboard`, the same code in both variants).
  `run` snapshots the board, ages it, then renders the snapshot. The renderer
  (`printDashboard`, `printEntry`, `printMessage`) returns the frame as a
  string instead of printing it. A `HashMap` iterates in an unspecified order,
  so that order is a parameter: any listing of the snapshot's authors that has
  no duplicates.

Modules: `Wrappers` (an `Option`), `Board`, `LineIo`, `Session`, `Client`,
`Dashboard`, and `LifeTime32` (the source's 32-bit age counter, see Findings).

Behaviour of the code that the model keeps as written, although the code's own
structure suggests a different intent:

- **Colour.** A bright colour for ages 2–11 looks intended, but it is never
  shown. The `else` binds only to the `< 12` test. The unconditional `< 24`
  test after it then sets green for every age below 24, including ages 0 and 1.
  `Dashboard.Color` follows the code, and `Dashboard.BrightNeverShown` records
  that the bright branch is dead.
- **Blank method line.** An empty line where a method name is due does not skip
  a request. `readRequest` returns it as an empty request, and that ends the
  session. So the `method.equals("")` branch can never be taken.
- **`removeAuthor` in lab01.** The lab01 server does not recognise
  `removeAuthor`. The quit frame the client sends on exit is logged as an
  unknown method, and the author's last message stays on the board for good.
- **Author column.** The author is cut to 10 characters and padded on the right
  with spaces, as `%-10s` does.

## Model

| member | source | states |
|---|---|---|
| Board.PutMessage | lab02/src/main/java/com/dhcs/AppState.java:39-43 | the author is present afterwards with the given text at age 0, whatever was there; the key set grows by at most that author; every other author's entry is untouched |
| Board.RemoveAuthor | lab02/src/main/java/com/dhcs/AppState.java:45-49 | the author is absent afterwards; all other entries are kept unchanged; removing an absent author leaves the board exactly as it was |
| Board.TimeStep | lab02/src/main/java/com/dhcs/AppState.java:51-57 | the key set and every text are preserved, and every age grows by exactly one |
| Board.Message.Aged | lab02/src/main/java/com/dhcs/AppState.java:23-25 | one message's tick; `Board.TimeStep` states that it keeps the text and adds exactly one to the age |
| Board.TimeStepEach | lab01/src/main/java/com/dhcs/App.java:55-61 | the loop that ages the messages one at a time yields the same board as aging all of them at once |
| Board.GetMessages | lab02/src/main/java/com/dhcs/AppState.java:59-69 | the clone-by-clone copy has exactly the board's authors, and each copied entry has the same text and age as the original |
| Board.TimeStepsAddN | lab02/src/main/java/com/dhcs/AppState.java:51-57 | n time steps add exactly n to every age and change neither keys nor texts; an empty board stays empty |
| Board.OverwriteResetsAge | lab01/src/main/java/com/dhcs/App.java:49-53 | a second put by an author resets the entry to the new text at age 0, however old the first one had grown |
| Board.RemoveAfterPut | lab02/src/main/java/com/dhcs/AppState.java:45-49 | removing an author right after their put leaves the board as removing alone would, without that author |
| Board.PutsOfDistinctAuthorsCommute | lab01/src/main/java/com/dhcs/App.java:49-53 | puts by two different authors give the same board in either order |
| Board.RunMatchesHistory | lab02/src/main/java/com/dhcs/AppState.java:39-57 | after any history of puts, removes and steps from the empty board, an author is present iff their last write was a put; the entry then holds that put's text, with age equal to the number of steps since |
| Board.RunAgesNonNegative | lab02/src/main/java/com/dhcs/AppState.java:10-25 | every board reachable from the empty one has only non-negative ages |
| LineIo.ReadLine | lab01/src/main/java/com/dhcs/App.java:237 | the line returned is the longest terminator-free prefix of the stream. The rest starts after its line feed, carriage return, or carriage-return/line-feed pair. End-of-stream is reported only on an empty stream |
| LineIo.SplitLines | lab01/src/main/java/com/dhcs/App.java:236-247 | none of the lines read back from a stream contains a line terminator |
| LineIo.Println | lab01/src/main/java/com/dhcs/App.java:370-381 | each line followed by the separator; `LineIo.SplitLinesOfPrintln` states that `readLine` recovers exactly the printed lines |
| LineIo.ReadLineOfPrintln | lab01/src/main/java/com/dhcs/App.java:370-373 | a terminator-free line written with `println`, under either line separator, is read back whole; reading then resumes right after its separator |
| LineIo.SplitLinesOfPrintln | lab01/src/main/java/com/dhcs/App.java:370-373 | reading back a sequence of printed terminator-free lines yields exactly those lines |
| Session.ReadRequest | lab01/src/main/java/com/dhcs/App.java:233-250 | the request is the run of consecutive lines from the cursor, and none of them is empty. It ends at the first empty line, which is consumed, or at a clean end-of-stream. A read error is reported iff the stream fails before any empty line |
| Session.Dispatch | lab01/src/main/java/com/dhcs/App.java:215-229 | the board changes only for exactly `putMessage`, author, text, and then exactly as that put. Another argument count is logged with that count. Any other non-empty method, `removeAuthor` included, is logged as unknown. The board is otherwise unchanged |
| Session.Process | lab01/src/main/java/com/dhcs/App.java:201-231 | a clean end-of-stream or a blank line where a method is due ends the session with no change and no log. The empty-method outcome never occurs. A read error ends it only on a failing stream. No author is ever removed. Each logged outcome consumed at least one line |
| Session.EmptyMethodUnreachable | lab01/src/main/java/com/dhcs/App.java:216-218 | no non-empty request read by `readRequest` starts with an empty line, so on any board it never reaches the empty-method branch |
| Session.RemoveAuthorIsUnknown | lab01/src/main/java/com/dhcs/App.java:219-229 | a `removeAuthor` request is logged as an unknown method and leaves the board unchanged |
| Session.ReadErrorDropsPartialRequest | lab01/src/main/java/com/dhcs/App.java:204-209 | from any point in the stream, even after complete requests, lines read before a read error that are not yet ended by a blank line never reach the board and nothing is logged for them |
| Session.RequestThenContinues | lab01/src/main/java/com/dhcs/App.java:202-230 | a non-empty request never ends the session: its outcome is logged and the loop goes on reading right after it, from the board the request left; a rejected request (wrong argument count or unknown method) leaves the board unchanged |
| Client.Sent | lab01/src/main/java/com/dhcs/App.java:366-368 | no sent line is empty and no more lines are sent than typed; every non-empty line is sent exactly as often as it was typed; a non-empty last typed line is the last line sent |
| Client.SentDistributes | lab01/src/main/java/com/dhcs/App.java:344-373 | the typed order is kept: what is sent for two stretches of typing is what is sent for the first followed by what is sent for the second |
| Client.ClientLines | lab01/src/main/java/com/dhcs/App.java:344-381 | everything the client writes; `Client.ClientLinesShape` and `Client.SessionRoundTrip` state its shape and its meaning to the server |
| Client.ClientLinesShape | lab01/src/main/java/com/dhcs/App.java:344-381 | a connection is exactly the put frame of each sent message, in the order sent, followed by the quit frame; so it is 4·(messages sent) + 3 lines long and ends with the quit frame |
| Client.PutFrame | lab01/src/main/java/com/dhcs/App.java:370-373 | the put frame; `Client.PutFrameRoundTrip` states that it decodes to exactly that put |
| Client.QuitFrame | lab01/src/main/java/com/dhcs/App.java:377-381 | the quit frame; `Client.QuitFrameRoundTrip` states that it decodes to a rejected `removeAuthor` |
| Client.PutFrameRoundTrip | lab01/src/main/java/com/dhcs/App.java:370-373 | the client's frame for a non-empty name and message decodes to exactly that put request, stores exactly that put, and leaves the cursor after the frame |
| Client.QuitFrameRoundTrip | lab01/src/main/java/com/dhcs/App.java:377-381 | the quit frame decodes to a `removeAuthor` request that the server rejects as unknown without touching the board |
| Client.SessionRoundTrip | lab01/src/main/java/com/dhcs/App.java:344-381 | a whole client connection, at the line level, stores each sent message in order, then logs the quit frame as unknown and ends at end-of-stream |
| Client.ConnectionRoundTrip | lab01/src/main/java/com/dhcs/App.java:326-335 | the same holds over the character stream: the lines are written with `println` under either separator and read back with `readLine` |
| Client.PutAllKeepsLast | lab01/src/main/java/com/dhcs/App.java:49-53 | after a series of puts by one author, that author holds the last message at age 0, and no other key is added |
| Client.DisconnectLeavesStaleEntry | lab01/src/main/java/com/dhcs/App.java:331-335 | after a lab01 client that sent anything disconnects, its last message stays on the board at age 0 |
| Client.EmptyNameBreaksFraming | lab01/src/main/java/com/dhcs/App.java:370-373 | a frame with an empty name, which `askName` accepts, is read as a put with no arguments followed by a one-line request; both are rejected and the board is unchanged |
| Dashboard.Spaces | lab02/src/main/java/com/dhcs/AppMessagesDashboard.java:54 | the padding has exactly the requested length and holds only spaces |
| Dashboard.Truncate | lab02/src/main/java/com/dhcs/AppMessagesDashboard.java:68 | the result is the prefix of the text of length min(length, limit) |
| Dashboard.PadRight | lab02/src/main/java/com/dhcs/AppMessagesDashboard.java:69-70 | a text shorter than the width is followed by exactly enough spaces to fill it; a longer text is left uncut |
| Dashboard.AuthorColumn | lab02/src/main/java/com/dhcs/AppMessagesDashboard.java:44 | the column is always exactly 10 characters: the first ten of the name, or the whole name padded with spaces |
| Dashboard.Lead | lab02/src/main/java/com/dhcs/AppMessagesDashboard.java:53-59 | the indent is all spaces: 8 iff the age is below 1, 2 iff the age is exactly 1, none iff the age is 2 or more |
| Dashboard.Color | lab02/src/main/java/com/dhcs/AppMessagesDashboard.java:51-66 | the colour is green for every age below 24 and empty from 24 on |
| Dashboard.BrightNeverShown | lab02/src/main/java/com/dhcs/AppMessagesDashboard.java:59-66 | the bright colour assigned for ages 2–11 is never the colour chosen, at any age |
| Dashboard.Body | lab02/src/main/java/com/dhcs/AppMessagesDashboard.java:67-70 | indent plus body is always 61 characters; the body is the text padded with spaces when it fits, else the text's prefix of that width |
| Dashboard.RenderMessage | lab02/src/main/java/com/dhcs/AppMessagesDashboard.java:49-71 | one message zone; `Dashboard.MessageLayout` and `Dashboard.MessageZoneWidth` state its layout |
| Dashboard.MessageLayout | lab02/src/main/java/com/dhcs/AppMessagesDashboard.java:49-71 | the rendered zone is the indent, then the colour, then the body (the text padded to fit or cut to a prefix), then the reset code, each at its fixed offset. Its length is 61 plus the lengths of the colour and reset codes |
| Dashboard.MessageZoneWidth | lab02/src/main/java/com/dhcs/AppMessagesDashboard.java:50-70 | the visible zone is always 61 characters, and its body either starts with the whole text or is a prefix of it |
| Dashboard.RenderEntry | lab02/src/main/java/com/dhcs/AppMessagesDashboard.java:43-47 | one board row; `Dashboard.EntryLayout` states its layout |
| Dashboard.EntryLayout | lab02/src/main/java/com/dhcs/AppMessagesDashboard.java:43-47 | a row is `+ [`, the 10-character author column, `]: `, the message zone, then a space, a bar and a newline, at those fixed positions |
| Dashboard.Rows | lab02/src/main/java/com/dhcs/AppMessagesDashboard.java:31-37 | an empty snapshot gives exactly the one placeholder row. Otherwise there is one row per author, the i-th row renders the i-th author of the iteration order, and every author's row appears |
| Dashboard.RenderDashboard | lab02/src/main/java/com/dhcs/AppMessagesDashboard.java:27-41 | every frame begins with the screen clear and the header and ends with the footer, and between them lie exactly the rows of `Dashboard.Rows`, one per author. An empty snapshot renders exactly clear, header, placeholder and footer |
| Dashboard.RowsCountAuthors | lab02/src/main/java/com/dhcs/AppMessagesDashboard.java:31-37 | for a non-empty snapshot, each row string occurs on screen exactly as often as there are authors whose entry renders to it, whatever the iteration order |
| Dashboard.RowsIndependentOfOrder | lab02/src/main/java/com/dhcs/AppMessagesDashboard.java:34-36 | any two iteration orders of the same snapshot render the same rows, up to their order on screen |
| Dashboard.Tick | lab02/src/main/java/com/dhcs/AppMessagesDashboard.java:21-23 | one tick renders the board with its pre-increment ages and leaves it with the same keys and texts and every age one higher |
| Dashboard.PutBetweenSnapshotAndStepSkipsAgeZero | lab02/src/main/java/com/dhcs/AppMessagesDashboard.java:21-22 | a put landing between a tick's snapshot and its time step is aged before it is first rendered. It shows at age 1 with a 2-space indent, never as a fresh message |
| LifeTime32.IncAsWritten | lab02/src/main/java/com/dhcs/AppState.java:23-25 | the 32-bit increment stays in range; it adds one below the maximum and wraps to the minimum at it |
| LifeTime32.AgeAsWrittenExact | lab02/src/main/java/com/dhcs/AppState.java:10-25 | up to 2^31 − 1 ticks the 32-bit counter equals the number of ticks |
| LifeTime32.AgeWrapsAfterMaxTicks | lab02/src/main/java/com/dhcs/AppState.java:23-25 | after 2^31 ticks the 32-bit counter is negative, and the message is rendered as if new: 8-space indent, green |
| LifeTime32.UnboundedAgeStaysFaded | lab02/src/main/java/com/dhcs/AppMessagesDashboard.java:53-66 | with unbounded ages the same message after 2^31 ticks is at age 2^31, with no indent and no colour |

lab01's `AppState` (lab01/src/main/java/com/dhcs/App.java:17-74) and its dashboard
(lab01/src/main/java/com/dhcs/App.java:76-142) are the same code as lab02's,
without `removeAuthor`. The rows above that cite lab02 model both.

## Left out

- Sockets, stream setup and teardown (`AppServer.start`, `ClientHandler.run`, `AppClient.start`): I/O plumbing. A connection is modelled as the lines it carries.
- The RMI variant's transport (lab02 `AppServer`, `IAppServer`, `AppClient`): a remote wrapper that calls `putMessage` and `removeAuthor` on the board directly. Those board operations are modelled.
- Threads, `sleep(125)`, interruption, shutdown hooks and the fair `ReentrantReadWriteLock`: concurrency machinery. Each locked method is one atomic step. The one interleaving that matters, a put between snapshot and time step, is a lemma.
- Interactive prompts and banners (`selectStartType`, `askName`, `AppClientBuilder`, `printHeader`, `main`): CLI with no modelled logic. `askName`'s `||` dereferences `null` at end of input; that crash is not modelled. Its acceptance of an empty name is what `Client.EmptyNameBreaksFraming` starts from.
- Writes to standard output and standard error, and `flush`: frames are returned as strings, and each logged error is an `Outcome` with no board change.
- Character encoding: the client's `PrintWriter` encodes and the server's `InputStreamReader` decodes, both with the platform's default charset. Both ends run on the same host (127.0.0.1), so the model works on characters and leaves out the encoding step.
- Java strings count UTF-16 code units. The model counts characters (Unicode scalar values), so `substring` cutting a surrogate pair is not modelled.
- The client's own read errors and interrupts: they end the typed input early, so they are covered by a shorter `typed` sequence. Write errors, which `PrintWriter` swallows, are not modelled.
- Session.Process: an I/O error can only strike after the last available line (`failsAtEnd`). Lines after a failure are never read, so this covers a failure at any point.
- `getMessages` sizes its copy from `messages.size()` before taking the read lock. That value is only a capacity hint and does not affect the copy, so it is not modelled.
- Board.TimeStep: ages are unbounded integers, not the source's 32-bit `int`. The wrap-around is modelled separately in `LifeTime32`; see Findings.

## Findings

| source | as written | input that shows it | evidently intended | confidence | as-written member | corrected member |
|---|---|---|---|---|---|---|
| lab02/src/main/java/com/dhcs/AppState.java:23-25 | `lifeTime += 1` on a 32-bit `int` wraps from 2^31 − 1 to −2^31 | a message left unchanged for 2^31 ticks, about 8.5 years at one tick per 125 ms | ages only grow, so an old message stays faded | not executed; low impact, given the uptime needed | LifeTime32.AgeWrapsAfterMaxTicks | Board.RunAgesNonNegative |

=== FILE: board.dfy ===
/**
 The shared board (`AppState`): a map from author to that author's most recent
 message and its age in dashboard ticks. lab01 and lab02 carry the same class;
 only lab02 exposes `removeAuthor`.

 Every public method of `AppState` holds the board lock for one mutation or one
 copy, so each is modelled as a single atomic step: a pure function from the
 board before to the board after. Passing the board by value also gives the
 snapshot its value semantics: no later step can reach into a copy.
 */
module Board {

  /** One author's current message: its text and how many ticks it has lived. */
  datatype Message = Message(text: string, lifeTime: int) {

    /** The same message one tick older (`Message.timeStep`). */
    function Aged(): Message {
      Message(text, lifeTime + 1)
    }
  }

  /** At most one live message per author; an absent author has no entry. */
  type Messages = map<string, Message>

  /** `putMessage`: the author's entry becomes a fresh message of age 0, whatever was there. */
  function PutMessage(b: Messages, author: string, text: string): (r: Messages)
    ensures r.Keys == b.Keys + {author}
    ensures r[author] == Message(text, 0)
    ensures forall a :: a in r && a != author ==> r[a] == b[a]
  {
    b[author := Message(text, 0)]
  }

  /** `removeAuthor`: deletes the author's entry if present; absent is not an error. */
  function RemoveAuthor(b: Messages, author: string): (r: Messages)
    ensures r.Keys == b.Keys - {author}
    ensures forall a :: a in r ==> r[a] == b[a]
    ensures author !in b ==> r == b
  {
    b - {author}
  }

  /** `timeStep`: every present message gets one tick older; nothing appears or vanishes. */
  function TimeStep(b: Messages): (r: Messages)
    ensures r.Keys == b.Keys
    ensures forall a :: a in r ==> r[a].text == b[a].text && r[a].lifeTime == b[a].lifeTime + 1
  {
    map a | a in b :: b[a].Aged()
  }

  /** The `timeStep` loop as written: the messages are aged one after another. */
  method TimeStepEach(b: Messages) returns (r: Messages)
    ensures r == TimeStep(b)
  {
    r := b;
    var pending := b.Keys;
    while pending != {}
      invariant pending <= b.Keys
      invariant r.Keys == b.Keys
      invariant forall a :: a in r ==> r[a] == if a in pending then b[a] else b[a].Aged()
      decreases pending
    {
      var a :| a in pending;
      r := r[a := r[a].Aged()];
      pending := pending - {a};
    }
  }

  /** `getMessages`: copies every entry, one clone at a time, into a fresh map. */
  method GetMessages(b: Messages) returns (copy: Messages)
    ensures copy.Keys == b.Keys
    ensures forall a :: a in copy ==> copy[a].text == b[a].text && copy[a].lifeTime == b[a].lifeTime
  {
    copy := map[];
    var pending := b.Keys;
    while pending != {}
      invariant pending <= b.Keys
      invariant copy.Keys == b.Keys - pending
      invariant forall a :: a in copy ==> copy[a] == b[a]
      decreases pending
    {
      var a :| a in pending;
      copy := copy[a := Message(b[a].text, b[a].lifeTime)];
      pending := pending - {a};
    }
  }

  /** The board after `n` consecutive time steps. */
  function TimeSteps(b: Messages, n: nat): Messages
  {
    if n == 0 then b else TimeStep(TimeSteps(b, n - 1))
  }

  /** `n` time steps add exactly `n` to every age and change nothing else; an empty board stays empty. */
  lemma {:induction false} TimeStepsAddN(b: Messages, n: nat)
    ensures TimeSteps(b, n).Keys == b.Keys
    ensures forall a :: a in b ==> TimeSteps(b, n)[a] == Message(b[a].text, b[a].lifeTime + n)
  {
    if n > 0 {
      TimeStepsAddN(b, n - 1);
    }
  }

  /** A second put by the same author replaces the first entirely, resetting the age. */
  lemma OverwriteResetsAge(b: Messages, author: string, t1: string, t2: string, n: nat)
    ensures PutMessage(TimeSteps(PutMessage(b, author, t1), n), author, t2)[author] == Message(t2, 0)
  {
  }

  /** After a remove the author is gone, whatever was there before. */
  lemma RemoveAfterPut(b: Messages, author: string, text: string)
    ensures RemoveAuthor(PutMessage(b, author, text), author) == RemoveAuthor(b, author)
    ensures author !in RemoveAuthor(PutMessage(b, author, text), author)
  {
  }

  /** Writes by different authors do not interfere, so their order does not matter. */
  lemma PutsOfDistinctAuthorsCommute(b: Messages, a1: string, t1: string, a2: string, t2: string)
    requires a1 != a2
    ensures PutMessage(PutMessage(b, a1, t1), a2, t2) == PutMessage(PutMessage(b, a2, t2), a1, t1)
  {
  }

  /** One locked mutation of the board. */
  datatype Op = Put(author: string, text: string) | Remove(author: string) | Step

  function Apply(b: Messages, op: Op): Messages
  {
    match op
    case Put(a, t) => PutMessage(b, a, t)
    case Remove(a) => RemoveAuthor(b, a)
    case Step => TimeStep(b)
  }

  /** The board after a history of mutations, starting from the empty board the server creates. */
  function Run(ops: seq<Op>): Messages
  {
    if |ops| == 0 then map[] else Apply(Run(ops[..|ops| - 1]), ops[|ops| - 1])
  }

  /** Number of time steps in a history. */
  function CountSteps(ops: seq<Op>): nat
  {
    if |ops| == 0 then 0
    else CountSteps(ops[..|ops| - 1]) + (if ops[|ops| - 1].Step? then 1 else 0)
  }

  /** True iff `op` writes or removes the entry of `author`. */
  predicate Touches(op: Op, author: string)
  {
    !op.Step? && op.author == author
  }

  /** True iff `ops[i]` is the last operation in `ops` that writes or removes `author`. */
  predicate LastTouch(ops: seq<Op>, author: string, i: int)
  {
    && 0 <= i < |ops|
    && Touches(ops[i], author)
    && forall j :: i < j < |ops| ==> !Touches(ops[j], author)
  }

  /** An operation that does not touch `author` keeps their presence, and ages their entry iff it is a time step. */
  lemma ApplyUntouched(b: Messages, op: Op, author: string)
    requires !Touches(op, author)
    ensures author in Apply(b, op) <==> author in b
    ensures author in b ==> Apply(b, op)[author] == if op.Step? then b[author].Aged() else b[author]
  {
  }

  /** A last touch before the final operation is also the last touch of the history without that operation. */
  lemma LastTouchInPrior(ops: seq<Op>, author: string, i: int)
    requires LastTouch(ops, author, i) && i < |ops| - 1
    ensures LastTouch(ops[..|ops| - 1], author, i)
    ensures !Touches(ops[|ops| - 1], author)
    ensures CountSteps(ops[i + 1..]) == CountSteps(ops[..|ops| - 1][i + 1..]) + if ops[|ops| - 1].Step? then 1 else 0
  {
    assert ops[i + 1..][..|ops[i + 1..]| - 1] == ops[..|ops| - 1][i + 1..];
  }

  /**
   The board as a function of its history: an author is present iff their last
   write was a put, and then the entry holds that put's text with an age equal
   to the number of time steps since.
   */
  lemma {:induction false} RunMatchesHistory(ops: seq<Op>, author: string)
    ensures (forall j :: 0 <= j < |ops| ==> !Touches(ops[j], author)) ==> author !in Run(ops)
    ensures forall i :: LastTouch(ops, author, i) ==>
      && (author in Run(ops) <==> ops[i].Put?)
      && (ops[i].Put? ==> Run(ops)[author] == Message(ops[i].text, CountSteps(ops[i + 1..])))
  {
    if |ops| > 0 {
      var prior := ops[..|ops| - 1];
      var last := ops[|ops| - 1];
      RunMatchesHistory(prior, author);
      forall i | LastTouch(ops, author, i)
        ensures author in Run(ops) <==> ops[i].Put?
        ensures ops[i].Put? ==> Run(ops)[author] == Message(ops[i].text, CountSteps(ops[i + 1..]))
      {
        if i == |ops| - 1 {
          assert ops[i + 1..] == [];
        } else {
          LastTouchInPrior(ops, author, i);
          ApplyUntouched(Run(prior), last, author);
        }
      }
      if forall j :: 0 <= j < |ops| ==> !Touches(ops[j], author) {
        assert forall j :: 0 <= j < |prior| ==> !Touches(prior[j], author) by {
          forall j | 0 <= j < |prior| ensures !Touches(prior[j], author) {
            assert prior[j] == ops[j];
          }
        }
      }
    }
  }

  /** True iff no message on the board has a negative age. */
  predicate AgesNonNegative(b: Messages)
  {
    forall a :: a in b ==> b[a].lifeTime >= 0
  }

  /** Ages start at 0 and are only ever incremented, so no reachable board holds a negative age. */
  lemma {:induction false} RunAgesNonNegative(ops: seq<Op>)
    ensures AgesNonNegative(Run(ops))
  {
    if |ops| > 0 {
      RunAgesNonNegative(ops[..|ops| - 1]);
    }
  }
}

=== FILE: client.dfy ===
/**
 The lab01 client's side of the protocol (`AppClient.process` and `sendQuit`):
 each non-empty line the user types is sent as a `putMessage` frame, and on
 exit a `removeAuthor` frame is sent. The round-trip lemmas run these frames
 through the server's request loop.
 */
module Client {
  import opened Board
  import opened Session
  import LineIo

  /** The four lines written per user message: method, name, message, and the blank line that ends the request. */
  function PutFrame(name: string, message: string): seq<string>
  {
    ["putMessage", name, message, ""]
  }

  /** The three lines `sendQuit` writes. */
  function QuitFrame(name: string): seq<string>
  {
    ["removeAuthor", name, ""]
  }

  /** Everything a client writes over one connection, given the lines the user typed; empty lines are not sent. */
  function ClientLines(name: string, typed: seq<string>): seq<string>
  {
    if |typed| == 0 then QuitFrame(name)
    else (if typed[0] == "" then [] else PutFrame(name, typed[0])) + ClientLines(name, typed[1..])
  }

  /** The put frames for `msgs`, one after the other. */
  function Frames(name: string, msgs: seq<string>): seq<string>
  {
    if |msgs| == 0 then [] else PutFrame(name, msgs[0]) + Frames(name, msgs[1..])
  }

  /**
   A connection is the put frame of each sent message, in order, and then the
   quit frame; so it is four lines per sent message plus three.
   */
  lemma {:induction false} ClientLinesShape(name: string, typed: seq<string>)
    ensures ClientLines(name, typed) == Frames(name, Sent(typed)) + QuitFrame(name)
    ensures |ClientLines(name, typed)| == 4 * |Sent(typed)| + 3
    ensures ClientLines(name, typed)[|ClientLines(name, typed)| - 3..] == QuitFrame(name)
    decreases |typed|
  {
    if |typed| == 0 {
      assert Frames(name, Sent(typed)) == [];
    } else {
      ClientLinesShape(name, typed[1..]);
      var head := if typed[0] == "" then [] else PutFrame(name, typed[0]);
      var tail := ClientLines(name, typed[1..]);
      assert ClientLines(name, typed) == head + tail;
      SentUnfold(typed);
      assert |Sent(typed)| == |head| / 4 + |Sent(typed[1..])|;
      SuffixOfAppend(head, tail, 3);
      FramesOfSent(name, typed);
      AppendAssoc(head, Frames(name, Sent(typed[1..])), QuitFrame(name));
    }
  }

  /** The frames for what `typed` sends: the first line's frame, if it is sent, before the rest. */
  lemma FramesOfSent(name: string, typed: seq<string>)
    requires |typed| > 0
    ensures Frames(name, Sent(typed)) ==
      (if typed[0] == "" then [] else PutFrame(name, typed[0])) + Frames(name, Sent(typed[1..]))
  {
    var rest := Sent(typed[1..]);
    SentUnfold(typed);
    if typed[0] == "" {
      assert [] + rest == rest;
    } else {
      FramesCons(name, typed[0], rest);
    }
  }

  lemma FramesCons(name: string, msg: string, rest: seq<string>)
    ensures Frames(name, [msg] + rest) == PutFrame(name, msg) + Frames(name, rest)
  {
    assert ([msg] + rest)[0] == msg && ([msg] + rest)[1..] == rest;
  }

  lemma SuffixOfAppend<T>(a: seq<T>, c: seq<T>, k: nat)
    requires k <= |c|
    ensures (a + c)[|a + c| - k..] == c[|c| - k..]
  {
  }

  /** The typed lines that are actually sent, in order. */
  function Sent(typed: seq<string>): (msgs: seq<string>)
    ensures forall i :: 0 <= i < |msgs| ==> msgs[i] != ""
    ensures |msgs| <= |typed|
    ensures multiset(msgs) == multiset(typed)["" := 0]
    ensures |typed| > 0 && typed[|typed| - 1] != "" ==> |msgs| > 0 && msgs[|msgs| - 1] == typed[|typed| - 1]
  {
    if |typed| == 0 then []
    else
      var rest := Sent(typed[1..]);
      SentCons(typed, rest);
      (if typed[0] == "" then [] else [typed[0]]) + rest
  }

  /** One step of `Sent`: if `rest` is what is sent for all but the first typed line, the contract holds for all of them. */
  lemma SentCons(typed: seq<string>, rest: seq<string>)
    requires |typed| > 0
    requires forall i :: 0 <= i < |rest| ==> rest[i] != ""
    requires |rest| <= |typed| - 1
    requires multiset(rest) == multiset(typed[1..])["" := 0]
    requires |typed| > 1 && typed[|typed| - 1] != "" ==> |rest| > 0 && rest[|rest| - 1] == typed[|typed| - 1]
    ensures var msgs := (if typed[0] == "" then [] else [typed[0]]) + rest;
      && (forall i :: 0 <= i < |msgs| ==> msgs[i] != "")
      && |msgs| <= |typed|
      && multiset(msgs) == multiset(typed)["" := 0]
      && (typed[|typed| - 1] != "" ==> |msgs| > 0 && msgs[|msgs| - 1] == typed[|typed| - 1])
  {
    var head := if typed[0] == "" then [] else [typed[0]];
    assert typed == [typed[0]] + typed[1..];
    assert multiset(typed) == multiset{typed[0]} + multiset(typed[1..]);
    assert multiset(head + rest) == multiset(head) + multiset(rest);
  }

  lemma SentUnfold(typed: seq<string>)
    requires |typed| > 0
    ensures Sent(typed) == (if typed[0] == "" then [] else [typed[0]]) + Sent(typed[1..])
  {
  }

  /** Sending keeps the typed order: what is sent for two stretches of typing is what is sent for each, one after the other. */
  lemma {:induction false} SentDistributes(a: seq<string>, c: seq<string>)
    ensures Sent(a + c) == Sent(a) + Sent(c)
    decreases |a|
  {
    if |a| == 0 {
      assert a + c == c;
    } else {
      SentDistributes(a[1..], c);
      SentDistributesStep(a, c);
    }
  }

  lemma SentDistributesStep(a: seq<string>, c: seq<string>)
    requires |a| > 0
    requires Sent(a[1..] + c) == Sent(a[1..]) + Sent(c)
    ensures Sent(a + c) == Sent(a) + Sent(c)
  {
    var head := if a[0] == "" then [] else [a[0]];
    SentOfAppendUnfold(a, c);
    SentUnfold(a);
    AppendAssoc(head, Sent(a[1..]), Sent(c));
  }

  lemma SentOfAppendUnfold(a: seq<string>, c: seq<string>)
    requires |a| > 0
    ensures Sent(a + c) == (if a[0] == "" then [] else [a[0]]) + Sent(a[1..] + c)
  {
    assert (a + c)[0] == a[0] && (a + c)[1..] == a[1..] + c;
    SentUnfold(a + c);
  }

  lemma AppendAssoc<T>(x: seq<T>, y: seq<T>, z: seq<T>)
    ensures x + (y + z) == (x + y) + z
  {
  }

  /** The board after `name` puts each message in turn. */
  function PutAll(b: Messages, name: string, msgs: seq<string>): Messages
    decreases |msgs|
  {
    if |msgs| == 0 then b else PutAll(PutMessage(b, name, msgs[0]), name, msgs[1..])
  }

  /** `n` successful stores followed by the unknown-method error the quit frame causes. */
  function SessionLog(n: nat): (log: seq<Outcome>)
    ensures |log| == n + 1
    ensures forall i :: 0 <= i < n ==> log[i] == Stored
    ensures log[n] == UnknownMethod("removeAuthor")
  {
    if n == 0 then [UnknownMethod("removeAuthor")] else [Stored] + SessionLog(n - 1)
  }

  /** A put frame with a non-empty name and message decodes to exactly that put, and reading resumes after its blank line. */
  lemma PutFrameRoundTrip(b: Messages, inp: Input, pos: nat, name: string, message: string)
    requires pos + 4 <= |inp.lines| && inp.lines[pos..pos + 4] == PutFrame(name, message)
    requires name != "" && message != ""
    ensures ReadRequest(inp, pos) == Request(["putMessage", name, message], pos + 4)
    ensures Dispatch(b, ["putMessage", name, message]) == (PutMessage(b, name, message), Stored)
  {
    var frame := inp.lines[pos..pos + 4];
    assert frame[0] == inp.lines[pos] && frame[1] == inp.lines[pos + 1];
    assert frame[2] == inp.lines[pos + 2] && frame[3] == inp.lines[pos + 3];
    assert inp.lines[pos] == "putMessage" && inp.lines[pos + 1] == name;
    assert inp.lines[pos + 2] == message && inp.lines[pos + 3] == "";
  }

  /** The quit frame decodes to a `removeAuthor` request, which lab01's server rejects without touching the board. */
  lemma QuitFrameRoundTrip(b: Messages, inp: Input, pos: nat, name: string)
    requires pos + 3 <= |inp.lines| && inp.lines[pos..pos + 3] == QuitFrame(name)
    requires name != ""
    ensures ReadRequest(inp, pos) == Request(["removeAuthor", name], pos + 3)
    ensures Dispatch(b, ["removeAuthor", name]) == (b, UnknownMethod("removeAuthor"))
  {
    var frame := inp.lines[pos..pos + 3];
    assert frame[0] == inp.lines[pos] && frame[1] == inp.lines[pos + 1] && frame[2] == inp.lines[pos + 2];
    assert inp.lines[pos] == "removeAuthor" && inp.lines[pos + 1] == name && inp.lines[pos + 2] == "";
  }

  /**
   A whole connection, at the line level: the server stores every sent message
   in order, then logs the quit frame as an unknown method and ends at
   end-of-stream.
   */
  lemma {:induction false} SessionRoundTrip(b: Messages, inp: Input, pos: nat, name: string, typed: seq<string>)
    requires pos <= |inp.lines| && inp.lines[pos..] == ClientLines(name, typed)
    requires !inp.failsAtEnd && name != ""
    ensures Process(b, inp, pos) == SessionResult(PutAll(b, name, Sent(typed)), SessionLog(|Sent(typed)|), NoMoreRequests)
    decreases |typed|
  {
    if |typed| == 0 {
      assert inp.lines[pos..pos + 3] == inp.lines[pos..][..3];
      QuitFrameRoundTrip(b, inp, pos, name);
      assert pos + 3 == |inp.lines|;
    } else if typed[0] == "" {
      assert Sent(typed) == Sent(typed[1..]);
      SessionRoundTrip(b, inp, pos, name, typed[1..]);
    } else {
      var lines := inp.lines[pos..];
      assert lines == PutFrame(name, typed[0]) + ClientLines(name, typed[1..]);
      assert inp.lines[pos..pos + 4] == lines[..4];
      PutFrameRoundTrip(b, inp, pos, name, typed[0]);
      assert inp.lines[pos + 4..] == lines[4..];
      var b' := PutMessage(b, name, typed[0]);
      SessionRoundTrip(b', inp, pos + 4, name, typed[1..]);
      assert Sent(typed) == [typed[0]] + Sent(typed[1..]);
    }
  }

  /** After a sequence of puts by one author, that author holds the last message at age 0. */
  lemma {:induction false} PutAllKeepsLast(b: Messages, name: string, msgs: seq<string>)
    requires |msgs| > 0
    ensures name in PutAll(b, name, msgs)
    ensures PutAll(b, name, msgs)[name] == Message(msgs[|msgs| - 1], 0)
    ensures PutAll(b, name, msgs).Keys == b.Keys + {name}
    decreases |msgs|
  {
    if |msgs| > 1 {
      PutAllKeepsLast(PutMessage(b, name, msgs[0]), name, msgs[1..]);
    }
  }

  /**
   The stale-entry defect: a lab01 client that sent anything leaves its last
   message on the board after disconnecting, because the server ignores the
   quit frame.
   */
  lemma DisconnectLeavesStaleEntry(b: Messages, name: string, typed: seq<string>)
    requires name != "" && |Sent(typed)| > 0
    ensures var r := Process(b, Input(ClientLines(name, typed), false), 0);
      name in r.board && r.board[name] == Message(Sent(typed)[|Sent(typed)| - 1], 0)
  {
    var inp := Input(ClientLines(name, typed), false);
    assert inp.lines[0..] == inp.lines;
    SessionRoundTrip(b, inp, 0, name, typed);
    PutAllKeepsLast(b, name, Sent(typed));
  }

  /**
   An empty name breaks the framing: the name's blank line ends the request
   early, so the put is rejected for its argument count and the message line
   becomes a request of its own. The board is not changed.
   */
  lemma EmptyNameBreaksFraming(b: Messages, message: string)
    requires message != ""
    ensures Process(b, Input(PutFrame("", message), false), 0) ==
      SessionResult(b, [WrongArgumentCount(0), if message == "putMessage" then WrongArgumentCount(0) else UnknownMethod(message)],
                    NoMoreRequests)
  {
    var inp := Input(PutFrame("", message), false);
    assert ReadRequest(inp, 0) == Request(["putMessage"], 2);
    assert ReadRequest(inp, 2) == Request([message], 4);
  }

  /**
   The same round trip over the character stream: the client's lines, written with
   `println` under either line separator and read back with `readLine`, give
   the server exactly the session of `SessionRoundTrip`. Names and messages
   come from `readLine` themselves, so they hold no line terminator.
   */
  lemma ConnectionRoundTrip(b: Messages, name: string, typed: seq<string>, sep: string)
    requires name != "" && LineIo.IsLine(name)
    requires forall i :: 0 <= i < |typed| ==> LineIo.IsLine(typed[i])
    requires LineIo.IsSeparator(sep)
    ensures var lines := LineIo.SplitLines(LineIo.Println(ClientLines(name, typed), sep));
      Process(b, Input(lines, false), 0) ==
      SessionResult(PutAll(b, name, Sent(typed)), SessionLog(|Sent(typed)|), NoMoreRequests)
  {
    var lines := ClientLines(name, typed);
    ClientLinesAreLines(name, typed);
    LineIo.SplitLinesOfPrintln(lines, sep);
    assert lines[0..] == lines;
    SessionRoundTrip(b, Input(lines, false), 0, name, typed);
  }

  /** Every line the client writes is terminator-free when the name and typed lines are. */
  lemma {:induction false} ClientLinesAreLines(name: string, typed: seq<string>)
    requires LineIo.IsLine(name)
    requires forall i :: 0 <= i < |typed| ==> LineIo.IsLine(typed[i])
    ensures forall i :: 0 <= i < |ClientLines(name, typed)| ==> LineIo.IsLine(ClientLines(name, typed)[i])
  {
    if |typed| > 0 {
      ClientLinesAreLines(name, typed[1..]);
      assert LineIo.IsLine(typed[0]);
    }
  }
}

=== FILE: dashboard.dfy ===
/**
 The dashboard (`AppMessagesDashboard`, identical in lab01 and lab02): each
 tick it snapshots the board, ages the board, and renders the snapshot as a
 fixed-width frame. Output goes to a returned string instead of standard
 output. The order in which a `HashMap` yields its entries is unspecified, so
 rendering takes that order as a parameter: any duplicate-free listing of the
 snapshot's authors.
 */
module Dashboard {
  import opened Board

  const Esc: char := '\U{1B}'

  /** The colour the code actually selects for every age below 24. */
  const Green: string := [Esc] + "[32m"

  /** The bold colour assigned for ages 2 to 11, which the next test always overwrites. */
  const Bright: string := [Esc] + "[1;32m"

  const Reset: string := [Esc] + "[0m"
  const ClearScreen: string := [Esc] + "[H" + [Esc] + "[2J"
  const Header: string := "+  -  -  -  -  -  -  -  -  -  -  -  -  -  -  -  -  -  --|==1line==chat====>-  +\n"
  const NoClients: string := "+                                 NO CLIENTS                                  +\n"
  const Footer: string := "+  -  -  -  -  -  -  -  -  -  -  -  -  -  -  -  -  -  -  -  -  -  -  -  -  -  +\n"

  /** Visible width of the author column and of the message zone. */
  const AuthorWidth: nat := 10
  const MessageWidth: nat := 61

  function Min(a: int, b: int): int
  {
    if a <= b then a else b
  }

  /** `n` space characters. */
  function Spaces(n: nat): (s: string)
    ensures |s| == n
    ensures forall i :: 0 <= i < n ==> s[i] == ' '
  {
    seq(n, _ => ' ')
  }

  /** `s.substring(0, Math.min(s.length(), n))`. */
  function Truncate(s: string, n: nat): (r: string)
    ensures |r| == Min(|s|, n)
    ensures r == s[..|r|]
  {
    s[..Min(|s|, n)]
  }

  /** `%-<w>s`: left-justified, padded with spaces to at least `w`, never cut. */
  function PadRight(s: string, w: nat): (r: string)
    ensures |s| <= w ==> r == s + Spaces(w - |s|)
    ensures |s| > w ==> r == s
  {
    if |s| < w then s + Spaces(w - |s|) else s
  }

  /** The author column: the first ten characters of the name, padded to exactly ten. */
  function AuthorColumn(author: string): (r: string)
    ensures |r| == AuthorWidth
    ensures |author| >= AuthorWidth ==> r == author[..AuthorWidth]
    ensures |author| < AuthorWidth ==> r == author + Spaces(AuthorWidth - |author|)
  {
    PadRight(Truncate(author, AuthorWidth), AuthorWidth)
  }

  /** The leading spaces a message of this age is indented by: 8 while new, 2 at age 1, none after. */
  function Lead(age: int): (r: string)
    ensures r == Spaces(|r|)
    ensures |r| == 8 <==> age < 1
    ensures |r| == 2 <==> age == 1
    ensures |r| == 0 <==> age >= 2
  {
    if age < 1 then Spaces(8) else if age < 2 then Spaces(2) else ""
  }

  /**
   The colour as the code selects it: the bright value is assigned only in the
   `else` of the age tests, and the unconditional `age < 24` test that follows
   always replaces it.
   */
  function Color(age: int): (c: string)
    ensures age < 24 ==> c == Green
    ensures age >= 24 ==> c == ""
  {
    var chosen := if age < 1 then "" else if age < 2 then "" else if age < 12 then Bright else "";
    if age < 24 then Green else chosen
  }

  /** The bright colour never reaches the screen, at any age. */
  lemma BrightNeverShown(age: int)
    ensures Color(age) != Bright
  {
  }

  /** The message text cut and padded to the width the lead leaves over. */
  function Body(text: string, age: int): (r: string)
    ensures |Lead(age)| + |r| == MessageWidth
    ensures |text| <= |r| ==> r == text + Spaces(|r| - |text|)
    ensures |text| >= |r| ==> r == text[..|r|]
  {
    var rest := MessageWidth - |Lead(age)|;
    PadRight(Truncate(text, rest), rest)
  }

  /** `printMessage`: lead spaces, colour, body, reset. */
  function RenderMessage(m: Message): string
  {
    Lead(m.lifeTime) + Color(m.lifeTime) + Body(m.text, m.lifeTime) + Reset
  }

  /**
   A rendered message zone is its indent, then its colour, then the body (the
   text padded or cut), then the reset code; without the two codes it is 61
   characters wide.
   */
  lemma MessageLayout(m: Message)
    ensures var r := RenderMessage(m);
      var lead := |Lead(m.lifeTime)|;
      var color := Color(m.lifeTime);
      && |r| == MessageWidth + |color| + |Reset|
      && r[..lead] == Spaces(lead)
      && r[lead..lead + |color|] == color
      && r[lead + |color|..|r| - |Reset|] == Body(m.text, m.lifeTime)
      && r[|r| - |Reset|..] == Reset
  {
    Pieces(Lead(m.lifeTime), Color(m.lifeTime), Body(m.text, m.lifeTime), Reset);
  }

  /**
   The visible part of a message zone, the lead followed by the body, is always
   61 characters, and its text is a prefix of the message or the whole message
   padded with spaces.
   */
  lemma MessageZoneWidth(m: Message)
    ensures |Lead(m.lifeTime) + Body(m.text, m.lifeTime)| == MessageWidth
    ensures var body := Body(m.text, m.lifeTime);
      (|m.text| <= |body| && body[..|m.text|] == m.text) || body == m.text[..|body|]
  {
  }

  /** `printEntry`: one row of the frame. */
  function RenderEntry(author: string, m: Message): string
  {
    "+ [" + AuthorColumn(author) + "]: " + RenderMessage(m) + " |\n"
  }

  /** A row holds the author column and the message zone at fixed positions, between fixed delimiters. */
  lemma EntryLayout(author: string, m: Message)
    ensures var r := RenderEntry(author, m);
      && |r| == 3 + AuthorWidth + 3 + |RenderMessage(m)| + 3
      && r[..3] == "+ [" && r[3..13] == AuthorColumn(author) && r[13..16] == "]: "
      && r[16..|r| - 3] == RenderMessage(m) && r[|r| - 3..] == " |\n"
  {
    var left := "+ [" + AuthorColumn(author) + "]: ";
    Pieces("+ [", AuthorColumn(author), "]: ", RenderMessage(m) + " |\n");
    Pieces(left, RenderMessage(m), " |\n", "");
    assert RenderEntry(author, m) == left + RenderMessage(m) + " |\n" + "";
  }

  /** Where each of four concatenated pieces sits in the whole. */
  lemma Pieces(p: string, q: string, r: string, t: string)
    ensures var w := p + q + r + t;
      && w[..|p|] == p
      && w[|p|..|p| + |q|] == q
      && w[|p| + |q|..|p| + |q| + |r|] == r
      && w[|p| + |q| + |r|..] == t
  {
  }

  /** True iff `order` lists every author of `s` exactly once: one possible iteration order of the map. */
  predicate IsIterationOrder(s: Messages, order: seq<string>)
  {
    && (forall i, j :: 0 <= i < j < |order| ==> order[i] != order[j])
    && (forall a :: a in order ==> a in s)
    && (forall a :: a in s ==> a in order)
  }

  /** The row `printEntry` writes for author `a` of snapshot `s`. */
  function RowOf(s: Messages): string -> string
  {
    a => if a in s then RenderEntry(a, s[a]) else ""
  }

  /** `f` applied to each element in turn. */
  function MapSeq(f: string -> string, xs: seq<string>): (ys: seq<string>)
    ensures |ys| == |xs|
    ensures forall i :: 0 <= i < |xs| ==> ys[i] == f(xs[i])
  {
    if |xs| == 0 then [] else [f(xs[0])] + MapSeq(f, xs[1..])
  }

  /** The rows between header and footer: the placeholder for an empty snapshot, else one row per author. */
  function Rows(s: Messages, order: seq<string>): (rows: seq<string>)
    requires IsIterationOrder(s, order)
    ensures |s| == 0 ==> rows == [NoClients]
    ensures |s| > 0 ==> |rows| == |s| == |order|
    ensures |s| > 0 ==> forall i :: 0 <= i < |rows| ==> rows[i] == RenderEntry(order[i], s[order[i]])
    ensures |s| > 0 ==> forall a :: a in s ==> RenderEntry(a, s[a]) in rows
  {
    IterationOrderLength(s, order);
    if |s| == 0 then [NoClients]
    else
      var rows := MapSeq(RowOf(s), order);
      EveryAuthorHasRow(s, order, rows);
      rows
  }

  /** Mapping an iteration order to rows gives each author's row at that author's position. */
  lemma EveryAuthorHasRow(s: Messages, order: seq<string>, rows: seq<string>)
    requires IsIterationOrder(s, order)
    requires |rows| == |order|
    requires forall i :: 0 <= i < |order| ==> rows[i] == RowOf(s)(order[i])
    ensures forall i :: 0 <= i < |rows| ==> rows[i] == RenderEntry(order[i], s[order[i]])
    ensures forall a :: a in s ==> RenderEntry(a, s[a]) in rows
  {
    forall a | a in s
      ensures RenderEntry(a, s[a]) in rows
    {
      var i :| 0 <= i < |order| && order[i] == a;
      assert rows[i] == RenderEntry(a, s[a]);
    }
  }

  function Concat(rows: seq<string>): string
  {
    if |rows| == 0 then "" else rows[0] + Concat(rows[1..])
  }

  lemma Framed(top: string, middle: string, bottom: string)
    ensures (top + middle + bottom)[..|top|] == top
    ensures (top + middle + bottom)[|top + middle + bottom| - |bottom|..] == bottom
    ensures (top + middle + bottom)[|top|..|top + middle + bottom| - |bottom|] == middle
  {
  }

  lemma ConcatSingleton(row: string)
    ensures Concat([row]) == row
  {
    assert [row][1..] == [];
    assert row + "" == row;
  }

  /** `printDashboard`: clear the screen, then header, rows and footer. */
  function RenderDashboard(s: Messages, order: seq<string>): (frame: string)
    requires IsIterationOrder(s, order)
    ensures |s| == 0 ==> frame == ClearScreen + Header + NoClients + Footer
    ensures |frame| >= |ClearScreen + Header| + |Footer|
    ensures frame[..|ClearScreen + Header|] == ClearScreen + Header
    ensures frame[|frame| - |Footer|..] == Footer
    ensures frame[|ClearScreen + Header|..|frame| - |Footer|] == Concat(Rows(s, order))
  {
    ConcatSingleton(NoClients);
    Framed(ClearScreen + Header, Concat(Rows(s, order)), Footer);
    ClearScreen + Header + Concat(Rows(s, order)) + Footer
  }

  /** A duplicate-free listing of the authors is exactly as long as the map. */
  lemma IterationOrderLength(s: Messages, order: seq<string>)
    requires IsIterationOrder(s, order)
    ensures |order| == |s|
  {
    DistinctCard(order);
    assert (set a | a in order) == s.Keys;
  }

  lemma {:induction false} DistinctCard(xs: seq<string>)
    requires forall i, j :: 0 <= i < j < |xs| ==> xs[i] != xs[j]
    ensures |set a | a in xs| == |xs|
  {
    if |xs| > 0 {
      DistinctCard(xs[1..]);
      assert (set a | a in xs) == {xs[0]} + (set a | a in xs[1..]);
      assert xs[0] !in xs[1..];
    }
  }

  /** The elements of `xs` that `f` maps to `r`. */
  function Hits(f: string -> string, xs: seq<string>, r: string): set<string>
  {
    set a | a in xs && f(a) == r
  }

  lemma HitsCons(f: string -> string, x: string, tail: seq<string>, r: string)
    ensures Hits(f, [x] + tail, r) == Hits(f, tail, r) + (if f(x) == r then {x} else {})
  {
    forall a
      ensures a in Hits(f, [x] + tail, r) <==> a in Hits(f, tail, r) + (if f(x) == r then {x} else {})
    {
      assert a in [x] + tail <==> a == x || a in tail;
    }
  }

  /** Over a duplicate-free sequence, each image occurs as often as there are elements mapped to it. */
  lemma {:induction false} MapSeqCount(f: string -> string, xs: seq<string>, r: string)
    requires forall i, j :: 0 <= i < j < |xs| ==> xs[i] != xs[j]
    ensures multiset(MapSeq(f, xs))[r] == |Hits(f, xs, r)|
  {
    if |xs| == 0 {
      assert Hits(f, xs, r) == {};
    } else {
      var x := xs[0];
      var tail := xs[1..];
      assert xs == [x] + tail;
      MapSeqCount(f, tail, r);
      assert MapSeq(f, xs) == [f(x)] + MapSeq(f, tail);
      HitsCons(f, x, tail, r);
      assert x !in Hits(f, tail, r);
    }
  }

  /** The authors of `s` whose entry renders to the row `r`. */
  function AuthorsWithRow(s: Messages, r: string): set<string>
  {
    set a | a in s && RowOf(s)(a) == r
  }

  lemma HitsAreAuthorsWithRow(s: Messages, order: seq<string>, r: string)
    requires forall a :: a in order ==> a in s
    requires forall a :: a in s ==> a in order
    ensures Hits(RowOf(s), order, r) == AuthorsWithRow(s, r)
  {
  }

  /**
   The rows are determined by the snapshot alone: each row occurs exactly as
   often as there are authors whose entry renders to it.
   */
  lemma RowsCountAuthors(s: Messages, order: seq<string>, r: string)
    requires IsIterationOrder(s, order) && |s| > 0
    ensures multiset(Rows(s, order))[r] == |AuthorsWithRow(s, r)|
  {
    MapSeqCount(RowOf(s), order, r);
    HitsAreAuthorsWithRow(s, order, r);
  }

  /** The rendered rows do not depend on the iteration order, up to their order on screen. */
  lemma RowsIndependentOfOrder(s: Messages, o1: seq<string>, o2: seq<string>)
    requires IsIterationOrder(s, o1) && IsIterationOrder(s, o2)
    ensures multiset(Rows(s, o1)) == multiset(Rows(s, o2))
  {
    if |s| > 0 {
      forall r
        ensures multiset(Rows(s, o1))[r] == multiset(Rows(s, o2))[r]
      {
        RowsCountAuthors(s, o1, r);
        RowsCountAuthors(s, o2, r);
      }
    }
  }

  /** One iteration of `run`: snapshot, age the board, render the snapshot. */
  method Tick(b: Messages, order: seq<string>) returns (next: Messages, frame: string)
    requires IsIterationOrder(b, order)
    ensures next.Keys == b.Keys
    ensures forall a :: a in next ==> next[a] == Message(b[a].text, b[a].lifeTime + 1)
    ensures frame == RenderDashboard(b, order)
  {
    var snapshot := GetMessages(b);
    next := TimeStepEach(b);
    assert snapshot == b;
    frame := RenderDashboard(snapshot, order);
  }

  /**
   Snapshot and time step are separate atomic steps, so a put landing between
   them is aged before the next snapshot: the new message is first rendered at
   age 1, indented by 2 spaces, never by the 8 of a fresh message.
   */
  lemma PutBetweenSnapshotAndStepSkipsAgeZero(b: Messages, author: string, text: string)
    ensures var next := TimeStep(PutMessage(b, author, text));
      next[author] == Message(text, 1) && Lead(next[author].lifeTime) == Spaces(2)
  {
  }
}

=== FILE: lifetime32.dfy ===
/**
 The age counter as the source declares it: a Java `int`, so `lifeTime += 1`
 wraps around from 2^31 - 1 to -2^31. The rest of the model counts ages in
 unbounded integers, which is what the dashboard's colour and indent rules
 rely on (see `Board.RunAgesNonNegative`).
 */
module LifeTime32 {
  import Board
  import Dashboard

  const MinInt: int := -0x8000_0000
  const MaxInt: int := 0x7fff_ffff

  predicate IsInt(x: int)
  {
    MinInt <= x <= MaxInt
  }

  /** `lifeTime += 1` on a 32-bit two's-complement `int`. */
  function IncAsWritten(x: int): (r: int)
    requires IsInt(x)
    ensures IsInt(r)
    ensures x < MaxInt ==> r == x + 1
    ensures x == MaxInt ==> r == MinInt
  {
    (x + 1 - MinInt) % 0x1_0000_0000 + MinInt
  }

  /** The age of a message after `n` ticks, counted as the source counts it. */
  function AgeAsWritten(n: nat): (r: int)
    ensures IsInt(r)
  {
    if n == 0 then 0 else IncAsWritten(AgeAsWritten(n - 1))
  }

  /** Up to 2^31 - 1 ticks the source's counter agrees with the unbounded one. */
  lemma {:induction false} AgeAsWrittenExact(n: nat)
    requires n <= MaxInt
    ensures AgeAsWritten(n) == n
  {
    if n > 0 {
      AgeAsWrittenExact(n - 1);
    }
  }

  /**
   One tick later the counter turns negative, and the dashboard shows a
   message that has been up for 2^31 ticks as if it had just arrived: indented
   by 8 spaces and coloured again.
   */
  lemma AgeWrapsAfterMaxTicks()
    ensures AgeAsWritten(MaxInt + 1) == MinInt < 0
    ensures Dashboard.Lead(AgeAsWritten(MaxInt + 1)) == Dashboard.Spaces(8)
    ensures Dashboard.Color(AgeAsWritten(MaxInt + 1)) == Dashboard.Green
  {
    AgeAsWrittenExact(MaxInt);
  }

  /** With unbounded ages, the same message after the same number of ticks is fully faded. */
  lemma UnboundedAgeStaysFaded(b: Board.Messages, author: string)
    requires author in b && b[author].lifeTime == 0
    ensures author in Board.TimeSteps(b, MaxInt + 1)
    ensures Board.TimeSteps(b, MaxInt + 1)[author].lifeTime == MaxInt + 1
    ensures Dashboard.Lead(MaxInt + 1) == "" && Dashboard.Color(MaxInt + 1) == ""
  {
    Board.TimeStepsAddN(b, MaxInt + 1);
  }
}

=== FILE: lineio.dfy ===
/**
 The line layer both ends of a lab01 connection rely on: the client writes
 each line with `PrintWriter.println` (the line followed by the platform line
 separator) and the server reads them back with `BufferedReader.readLine`,
 which ends a line at a line feed, a carriage return, or a carriage return
 followed by a line feed, and reports end-of-stream as `null`.
 */
module LineIo {
  import opened Wrappers

  /** True iff `c` ends a line for `readLine`. */
  predicate IsTerminator(c: char)
  {
    c == '\n' || c == '\r'
  }

  /** True iff `line` contains no line terminator, as every line `readLine` returns. */
  predicate IsLine(line: string)
  {
    forall i :: 0 <= i < |line| ==> !IsTerminator(line[i])
  }

  /** The two line separators `println` uses (Unix and Windows). */
  predicate IsSeparator(sep: string)
  {
    sep == "\n" || sep == "\r\n"
  }

  /** `println` of each line in turn. */
  function Println(lines: seq<string>, sep: string): string
  {
    if |lines| == 0 then "" else lines[0] + sep + Println(lines[1..], sep)
  }

  /**
   `readLine`: `None` at end-of-stream, otherwise the next line (without its
   terminator) and the unread rest of the stream. A last line without a
   terminator is still returned.
   */
  function ReadLine(s: string): (r: Option<(string, string)>)
    ensures r.None? <==> |s| == 0
    ensures r.Some? ==> IsLine(r.value.0) && |r.value.1| < |s|
    ensures r.Some? ==> |r.value.0| <= |s| && s[..|r.value.0|] == r.value.0
    ensures r.Some? && |r.value.0| == |s| ==> r.value.1 == []
    ensures r.Some? && |r.value.0| < |s| ==>
      var n := |r.value.0|;
      && IsTerminator(s[n])
      && r.value.1 == if s[n] == '\r' && n + 1 < |s| && s[n + 1] == '\n' then s[n + 2..] else s[n + 1..]
  {
    if |s| == 0 then None
    else if s[0] == '\n' then Some(("", s[1..]))
    else if s[0] == '\r' then Some(("", if |s| > 1 && s[1] == '\n' then s[2..] else s[1..]))
    else
      match ReadLine(s[1..])
      case None => Some(([s[0]], []))
      case Some((line, rest)) => Some(([s[0]] + line, rest))
  }

  /** Every line `readLine` returns before it reports end-of-stream. */
  function SplitLines(s: string): (lines: seq<string>)
    ensures forall i :: 0 <= i < |lines| ==> IsLine(lines[i])
    decreases |s|
  {
    match ReadLine(s)
    case None => []
    case Some((line, rest)) => [line] + SplitLines(rest)
  }

  /** A terminator-free line written with `println` is read back whole, and reading stops right after its separator. */
  lemma {:induction false} ReadLineOfPrintln(line: string, sep: string, rest: string)
    requires IsLine(line) && IsSeparator(sep)
    ensures ReadLine(line + sep + rest) == Some((line, rest))
  {
    if |line| == 0 {
      assert line + sep + rest == sep + rest;
    } else {
      assert (line + sep + rest)[1..] == line[1..] + sep + rest;
      ReadLineOfPrintln(line[1..], sep, rest);
      assert [line[0]] + line[1..] == line;
    }
  }

  /** Round trip: the reader recovers exactly the lines the writer printed. */
  lemma {:induction false} SplitLinesOfPrintln(lines: seq<string>, sep: string)
    requires forall i :: 0 <= i < |lines| ==> IsLine(lines[i])
    requires IsSeparator(sep)
    ensures SplitLines(Println(lines, sep)) == lines
  {
    if |lines| > 0 {
      var rest := Println(lines[1..], sep);
      assert Println(lines, sep) == lines[0] + sep + rest;
      ReadLineOfPrintln(lines[0], sep, rest);
      assert SplitLines(Println(lines, sep)) == [lines[0]] + SplitLines(rest);
      SplitLinesOfPrintln(lines[1..], sep);
      assert lines == [lines[0]] + lines[1..];
    }
  }
}

=== FILE: session.dfy ===
/**
 The lab01 server's per-connection request loop (`ClientHandler.process` and
 `readRequest`). A request is the lines read up to the first empty line or
 end-of-stream; its first line names the method and the rest are arguments.
 The protocol is one-way: no reply is ever written, and errors are only
 logged, which the model records as an `Outcome` per request.
 */
module Session {
  import opened Board

  /**
   The connection as the server's reader sees it: the lines `readLine`
   returns in order, and whether the reader then fails with an I/O error
   (`failsAtEnd`) instead of reporting end-of-stream.
   */
  datatype Input = Input(lines: seq<string>, failsAtEnd: bool)

  /** What one `readRequest` call yields: the request's lines and the cursor after them, or the read error it threw. */
  datatype Read = Request(lines: seq<string>, next: nat) | ReadFailure

  /** `readRequest` from line `pos`: the consecutive non-empty lines up to the first empty line or end-of-stream. */
  function ReadRequest(inp: Input, pos: nat): (r: Read)
    requires pos <= |inp.lines|
    ensures r.Request? ==> pos + |r.lines| <= |inp.lines| && inp.lines[pos..pos + |r.lines|] == r.lines
    ensures r.Request? ==> forall i :: 0 <= i < |r.lines| ==> r.lines[i] != ""
    ensures r.Request? ==>
      || (pos + |r.lines| < |inp.lines| && inp.lines[pos + |r.lines|] == "" && r.next == pos + |r.lines| + 1)
      || (pos + |r.lines| == |inp.lines| == r.next && !inp.failsAtEnd)
    ensures r.ReadFailure? <==> inp.failsAtEnd && forall i :: pos <= i < |inp.lines| ==> inp.lines[i] != ""
    decreases |inp.lines| - pos
  {
    if pos == |inp.lines| then
      if inp.failsAtEnd then ReadFailure else Request([], pos)
    else if inp.lines[pos] == "" then
      Request([], pos + 1)
    else
      match ReadRequest(inp, pos + 1)
      case ReadFailure => ReadFailure
      case Request(rest, next) => Request([inp.lines[pos]] + rest, next)
  }

  /** What the loop did with one non-empty request; all but `Stored` and `Skipped` are logged, and all but `Stored` are dropped. */
  datatype Outcome =
    | Stored
    | Skipped
    | WrongArgumentCount(count: nat)
    | UnknownMethod(name: string)

  /** True iff `request` is a well-formed `putMessage` request. */
  predicate IsPut(request: seq<string>)
  {
    |request| == 3 && request[0] == "putMessage"
  }

  /** One pass of the loop body after a non-empty request was read. Only `putMessage` is recognised. */
  function Dispatch(b: Messages, request: seq<string>): (r: (Messages, Outcome))
    requires |request| > 0
    ensures r.1 == Stored <==> IsPut(request)
    ensures IsPut(request) ==> r.0 == PutMessage(b, request[1], request[2])
    ensures !IsPut(request) ==> r.0 == b
    ensures r.1 == Skipped <==> request[0] == ""
    ensures r.1.WrongArgumentCount? <==> request[0] == "putMessage" && |request| != 3
    ensures r.1.WrongArgumentCount? ==> r.1.count == |request| - 1
    ensures r.1.UnknownMethod? <==> request[0] != "" && request[0] != "putMessage"
    ensures r.1.UnknownMethod? ==> r.1.name == request[0]
  {
    var name := request[0];
    var args := request[1..];
    if name == "" then (b, Skipped)
    else if name == "putMessage" then
      if |args| == 2 then (PutMessage(b, args[0], args[1]), Stored)
      else (b, WrongArgumentCount(|args|))
    else (b, UnknownMethod(name))
  }

  /** How a session ended: a request with no lines (end-of-stream, or an empty line where a method was due), or a read error. */
  datatype End = NoMoreRequests | ReadError

  /** The board after the session, the outcome of each request in order, and why the session ended. */
  datatype SessionResult = SessionResult(board: Messages, log: seq<Outcome>, end: End)

  /** `process`: read and dispatch requests from line `pos` until a request comes back empty or reading fails. */
  function Process(b: Messages, inp: Input, pos: nat): (r: SessionResult)
    requires pos <= |inp.lines|
    ensures Skipped !in r.log
    ensures (pos == |inp.lines| && !inp.failsAtEnd) || (pos < |inp.lines| && inp.lines[pos] == "") ==>
      r == SessionResult(b, [], NoMoreRequests)
    ensures r.end == ReadError ==> inp.failsAtEnd
    ensures b.Keys <= r.board.Keys
    ensures |r.log| <= |inp.lines| - pos
    decreases |inp.lines| - pos
  {
    match ReadRequest(inp, pos)
    case ReadFailure => SessionResult(b, [], ReadError)
    case Request(request, next) =>
      if |request| == 0 then SessionResult(b, [], NoMoreRequests)
      else
        var (b', outcome) := Dispatch(b, request);
        var rest := Process(b', inp, next);
        SessionResult(rest.board, [outcome] + rest.log, rest.end)
  }

  /** The `method.equals("")` branch is dead: no request `readRequest` returns starts with an empty line. */
  lemma EmptyMethodUnreachable(b: Messages, inp: Input, pos: nat)
    requires pos <= |inp.lines|
    ensures ReadRequest(inp, pos).Request? && |ReadRequest(inp, pos).lines| > 0 ==>
      ReadRequest(inp, pos).lines[0] != "" && Dispatch(b, ReadRequest(inp, pos).lines).1 != Skipped
  {
  }

  /** lab01's server does not know `removeAuthor`: the request is logged as unknown and the board keeps the author. */
  lemma RemoveAuthorIsUnknown(b: Messages, author: string)
    ensures Dispatch(b, ["removeAuthor", author]) == (b, UnknownMethod("removeAuthor"))
  {
  }

  /**
   A read error discards the partly read request: when the stream fails after
   a run of non-empty lines, however many complete requests came before, those
   lines never reach the board and nothing is logged for them.
   */
  lemma ReadErrorDropsPartialRequest(b: Messages, inp: Input, pos: nat)
    requires pos <= |inp.lines| && inp.failsAtEnd
    requires forall i :: pos <= i < |inp.lines| ==> inp.lines[i] != ""
    ensures Process(b, inp, pos) == SessionResult(b, [], ReadError)
  {
  }

  /**
   A dispatched request does not end the session: its outcome is logged (unless
   it was stored) and the loop goes on reading from where the request ended. A
   rejected request leaves the board as it was.
   */
  lemma RequestThenContinues(b: Messages, inp: Input, pos: nat)
    requires pos <= |inp.lines|
    requires ReadRequest(inp, pos).Request? && |ReadRequest(inp, pos).lines| > 0
    ensures var req := ReadRequest(inp, pos);
      var (b', outcome) := Dispatch(b, req.lines);
      && req.next <= |inp.lines|
      && Process(b, inp, pos) ==
         SessionResult(Process(b', inp, req.next).board, [outcome] + Process(b', inp, req.next).log, Process(b', inp, req.next).end)
      && (!IsPut(req.lines) ==> b' == b && outcome != Stored)
  {
  }
}

=== FILE: wrappers.dfy ===
/** An optional value, used where the source returns `null`. */
module Wrappers {

  datatype Option<+T> = None | Some(value: T)
}
